=== FILE: README.md ===
# Patient records service — Dafny model

A model of the patient-records API in `FastAPI/main.py` and of the two schema demonstrations
beside it, `FastAPI/field_validator.py` and `FastAPI/pydantic_demo.py`.

- `results.dfy` (`Results`): `Option` for absent keys and defaults, `Result` for outcomes.
- `health.dfy` (`Health`): the computed fields of a patient, `bmi` (weight over height squared,
  rounded to two decimals) and `verdict` (four categories cut at 18.5, 25 and 30).
- `sorting.dfy` (`Sorting`): `sorted(values, key=..., reverse=...)` as a stable insertion sort
  over a real-valued key.
- `patients.dfy` (`Patients`): the `Patient` model of the service with its constraints, the stored
  entry (`model_dump` output, computed fields included), the sparse `PatientUpdate` model and
  the merge of an update into a stored entry.
- `store.dfy` (`Store`): the handlers `view_patient`, `sort_patient`, `create_patient`,
  `update_patient` and `delete_patient` as pure functions over the persisted document, a
  `map<string, Entry>`.
- `service.dfy` (`Service`): the service as a state machine: one request, one reply and the
  document left behind, with the invariants every request keeps.
- `field_validator.py` → `field_validator.dfy` (`FieldValidator`): the email-domain allow-list
  (`value.split("@")[-1]`) and upper-casing of the name.
- `pydantic_demo.py` → `pydantic_demo.dfy` (`PydanticDemo`): the declarative field constraints.

A handler that fails never reaches `save_data`, so the persisted document after a failure is the
one that was loaded; `update_patient` merges into the loaded copy only, and that copy is dropped
when re-validation raises. The model therefore keeps only the persisted document as state.

Request bodies are validated before a handler body runs, so a malformed body is reported as
`Invalid` even when the id would also be unknown or already taken. Errors map to HTTP statuses
as `NotFound` 404, `Conflict` 400, `BadParam` 404 (unknown sort field or order) and
`Invalid` 422; `Invalid` carries the set of failing fields, since validation reports every
failing field rather than the first. When the merged record of an update fails validation
(`Patient(**existing_patient_info)`), the exception is raised inside the handler and nothing
catches it, so the client gets a 500 without a field list; the model answers `ServerError`,
keeping the failing fields only as a record of why.

Stored entries carry `bmi` and `verdict`, because `model_dump` includes computed fields.
`main.py` neither upper-cases nor bounds the length of `name`; those rules belong to the two
demonstration models. A request to `/sort` without `order` is `Sort(sortBy, "asc")`, the
query parameter's default.

## Model

| member | source | states |
|---|---|---|
| Health.Round2 | FastAPI/main.py:21 | `round(x, 2)` lands within 0.005 of `x` on a whole number of hundredths; an exact tie goes to the even hundredth |
| Health.Round2Monotone | FastAPI/main.py:21 | rounding to hundredths never reverses the order of two values |
| Health.Bmi | FastAPI/main.py:18-22 | bmi is within 0.005 of weight / height² and is a whole number of hundredths; a quotient exactly halfway between two hundredths rounds to the even one (22.125 gives 22.12) |
| Health.Verdict | FastAPI/main.py:24-34 | the category's rank is the number of cut-offs 18.5, 25, 30 at or below the bmi |
| Health.VerdictBands | FastAPI/main.py:24-34 | Underweight below 18.5, Normal on [18.5, 25), Overweight on [25, 30), Obese from 30; total over the reals |
| Health.VerdictMonotone | FastAPI/main.py:26-34 | a larger bmi never gets a lower category in Underweight < Normal < Overweight < Obese |
| Health.VerdictLabels | FastAPI/main.py:26-34 | the verdict is one of exactly four strings, one per category |
| Health.HeavierNeverLowerVerdict | FastAPI/main.py:18-34 | at a fixed height, more weight never lowers the verdict, rounding included |
| Sorting.Insert | FastAPI/main.py:89 | inserting into a sorted list keeps it sorted and adds exactly that element |
| Sorting.SortBy | FastAPI/main.py:89 | the result is a permutation of the input, ordered by the key (non-increasing when reversed) |
| Patients.Validate | FastAPI/main.py:9-16 | a record is a Patient iff id, name, city present, 0 < age < 120, gender in {male, female, other}, height > 0, weight > 0; the patient carries exactly the given fields; a failure names exactly the missing or out-of-range fields |
| Patients.Dump | FastAPI/main.py:100 | `model_dump` keeps the patient's six fields and adds bmi and verdict consistent with them |
| Patients.DumpRoundTrip | FastAPI/main.py:100 | dumping a valid patient gives an entry with consistent bmi/verdict that validates back to the same patient |
| Patients.CanonicalFixpoint | FastAPI/main.py:122-124 | re-validating and re-dumping an entry the service wrote reproduces it |
| Patients.ValidateUpdate | FastAPI/main.py:36-42 | an update passes iff every field sent with a value has age > 0, a known gender, height > 0, weight > 0 |
| Patients.Merge | FastAPI/main.py:115-120 | fields not sent keep their stored value, sent fields take the sent value (null clears), bmi/verdict untouched |
| Patients.MergeNoChange | FastAPI/main.py:117-120 | an update that sets nothing leaves the entry equal |
| Patients.UpdateWeakerThanPatient | FastAPI/main.py:39 | every valid patient's fields pass as an update, yet age 120 passes the update model and fails the Patient model |
| Store.ViewPatient | FastAPI/main.py:68-73 | the stored entry iff the id is present, otherwise not-found |
| Store.SortKey | FastAPI/main.py:89 | `x.get(sort_by, 0)`: the named field's value, or 0 when the entry lacks it |
| Store.ValuesInOrder | FastAPI/main.py:89 | `data.values()` lists the entry of each id in the dict's key order |
| Store.SortPatients | FastAPI/main.py:75-91 | bad `sort_by` or `order` is rejected; otherwise a permutation of the stored values, ascending or descending by the field, a missing field counting as 0 |
| Store.CreatePatient | FastAPI/main.py:93-104 | invalid body rejected with exactly the failing fields named; existing id is a conflict; a valid body with a new id succeeds, adding exactly that key with the body's fields and computed bmi/verdict, other keys untouched |
| Store.UpdatePatient | FastAPI/main.py:107-129 | an invalid body is rejected with its fields; an absent id is not-found; a merge that fails re-validation is a server error; otherwise only that key changes and its bmi/verdict are recomputed from the merged fields |
| Store.DeletePatient | FastAPI/main.py:132-143 | absent id is not-found; otherwise exactly that key is removed and the rest are equal |
| Service.Step | FastAPI/main.py:63-143 | viewing replies with the whole document or the stored entry (404 when absent); sorting replies with the listing or 404; a successful create, update or delete makes its result the new document and replies done, a failed one (including a delete of an absent id, 404) replies with its error and leaves the document unchanged; no request changes any id but its own |
| Service.StepKeepsCanonical | FastAPI/main.py:93-129 | if every entry has valid fields and consistent bmi/verdict, every request keeps it so |
| Service.CreateThenView | FastAPI/main.py:97-102 | after a create, viewing the id returns the six fields sent with bmi and verdict computed from them |
| Service.EmptyUpdateIsNoOp | FastAPI/main.py:115-127 | on an entry the service wrote, an update with no fields stores the same document |
| Service.UpdateChangesOnlySentFields | FastAPI/main.py:115-127 | after an update, fields left alone keep their value, sent fields hold the sent value, bmi/verdict follow the new height and weight, and on an entry the service wrote they stay when neither is sent |
| Service.CityUpdateChangesOnlyCity | FastAPI/main.py:115-127 | on an entry the service wrote, updating the city alone changes the city and nothing else |
| Service.WeightUpdateRecomputesVerdict | FastAPI/main.py:115-127 | updating the weight alone changes the weight and recomputes bmi and verdict, nothing else |
| Service.HeightUpdateRecomputesVerdict | FastAPI/main.py:115-127 | updating the height alone changes the height and recomputes bmi and verdict, nothing else |
| Service.OldAgeRejectedOnMerge | FastAPI/main.py:117-125 | age ≥ 120 passes update validation, then fails re-validation on "age" (a server error) and the document stays unchanged |
| Service.StoredViolationBlocksUpdate | FastAPI/main.py:115-123 | any stored field that is missing or out of range makes every valid update that leaves it alone fail, naming that field |
| Service.NullFieldRejected | FastAPI/main.py:117-123 | sending null for any of the six fields makes a valid update fail re-validation, naming that field |
| Service.SortThreeDescending | FastAPI/main.py:88-89 | for [a, b, c] with key(b) > key(c) > key(a), the descending sort is [b, c, a] |
| Service.SortByBmiDescending | FastAPI/main.py:88-89 | bmis 18.0, 30.5, 24.9 sorted descending come out 30.5, 24.9, 18.0 |
| FieldValidator.Split | FastAPI/field_validator.py:18 | `split("@")` gives at least one piece, no piece holds '@', and joining with '@' restores the input |
| FieldValidator.Domain | FastAPI/field_validator.py:18 | `split("@")[-1]` is the suffix after the last '@', the whole string when there is none |
| FieldValidator.AfterLastAtUnique | FastAPI/field_validator.py:18 | only one suffix of an email follows its last '@' |
| FieldValidator.ValidateEmail | FastAPI/field_validator.py:13-22 | accepted iff the domain is "hdfc.com" or "icici.com", then returned unchanged; otherwise "Not a valid domain" |
| FieldValidator.DomainIsIff | FastAPI/field_validator.py:18-20 | a candidate without '@' is the domain iff the email ends in '@' + candidate or equals it |
| FieldValidator.EmailAcceptedIff | FastAPI/field_validator.py:16-21 | accepted iff the email ends in "@hdfc.com" or "@icici.com" or is one of those domains |
| FieldValidator.TransformName | FastAPI/field_validator.py:24-27 | upper-casing keeps the length, leaves no lower-case ASCII letter, maps each to its capital and keeps every other character |
| FieldValidator.TransformNameIdempotent | FastAPI/field_validator.py:26-27 | upper-casing twice equals upper-casing once |
| FieldValidator.Validate | FastAPI/field_validator.py:4-27 | a patient validates iff its email domain is allowed; the result has the name upper-cased and nothing else changed |
| FieldValidator.SampleAccepted | FastAPI/field_validator.py:44-52 | the sample with "gaurav@hdfc.com" is accepted and its name becomes "GAURAV" |
| FieldValidator.GmailRejected | FastAPI/field_validator.py:17-21 | a gmail.com address is rejected with "Not a valid domain" |
| PydanticDemo.Validate | FastAPI/pydantic_demo.py:4-14 | valid iff name ≤ 50 characters, 0 < age ≤ 120, weight > 0, allergies absent or at most 5; a failure names exactly the fields that break their constraint |
| PydanticDemo.SampleAccepted | FastAPI/pydantic_demo.py:32-41 | the sample validates with married and allergies left at None |
| PydanticDemo.AgeBoundsDiffer | FastAPI/pydantic_demo.py:10 | on otherwise valid fields, this model and the service's Patient disagree exactly at age 120 |

## Left out

- `load_data`/`save_data` (file I/O) and the storage-unavailable error: the document is a value passed to and returned from each handler.
- The routing layer and HTTP status codes: each status is an `Error` constructor; response messages other than the domain error are not modelled.
- The `/` and `/about` handlers: they return constant messages and never touch the document. `/view` is `Service.ViewAll`, returning the document itself.
- `print` calls in `insert_patient_data` and `update_patient_data`: output only.
- `EmailStr` and `AnyUrl` syntax checks and the normalisation `EmailStr` applies: library behaviour not visible here; emails and URLs are plain strings taken as already passed those checks.
- Pydantic type coercion and `strict=True`: every field already has its declared type; missing required fields are modelled only in `main.py`'s `Patient` and only as absent keys, not as JSON `null` or wrongly typed values in the stored document.
- Health.Bmi: computed over exact reals, not IEEE doubles; `round` is modelled as round-half-to-even on the exact quotient. Exact reals also lose the float exception paths: `height**2` overflows (`OverflowError`) for heights above about 1.4e154 and underflows to 0.0 below about 1e-162, making `weight/0.0` raise `ZeroDivisionError`; in both cases the real create or update fails after validation and saves nothing, while the model's `CreatePatient`/`UpdatePatient` succeed.
- FieldValidator.TransformName: covers ASCII letters only; Unicode case mapping (which can change length) is not modelled.
- Concurrent requests and the last-writer-wins race on the file: there is no coordination logic to model.
- The dict's iteration order is a parameter (`keys`, any order listing each id once), and the order of equal sort keys is not stated; the sort itself is stable.
- Keys in a stored entry other than the six fields and `bmi`/`verdict` are not modelled; `Patient(**...)` ignores them.

=== FILE: field_validator.dfy ===
/** The patient model with custom field validators: an allow-list on the email's domain and
    upper-casing of the name. */
module FieldValidator {
  import opened Results

  /** Position of the first occurrence of `c` in `s`. */
  function IndexOf(s: string, c: char): (i: nat)
    requires c in s
    ensures i < |s| && s[i] == c && c !in s[..i]
  {
    if s[0] == c then 0 else 1 + IndexOf(s[1..], c)
  }

  /** `sep.join(pieces)`. */
  function Join(pieces: seq<string>, sep: char): string {
    if |pieces| == 0 then ""
    else if |pieces| == 1 then pieces[0]
    else pieces[0] + [sep] + Join(pieces[1..], sep)
  }

  /** `s.split(sep)`: the maximal pieces free of `sep`, in order. */
  function Split(s: string, sep: char): (pieces: seq<string>)
    ensures |pieces| >= 1
    ensures Join(pieces, sep) == s
    ensures forall i :: 0 <= i < |pieces| ==> sep !in pieces[i]
    decreases |s|
  {
    if sep !in s then [s]
    else
      var i := IndexOf(s, sep);
      assert s == s[..i] + [sep] + s[i + 1..];
      [s[..i]] + Split(s[i + 1..], sep)
  }

  /** Joining a list of two or more pieces puts the last piece after the last separator. */
  lemma {:induction false} JoinLast(pieces: seq<string>, sep: char)
    requires |pieces| >= 2
    ensures Join(pieces, sep) == Join(pieces[..|pieces| - 1], sep) + [sep] + pieces[|pieces| - 1]
  {
    if |pieces| > 2 {
      JoinLast(pieces[1..], sep);
      assert pieces[1..][..|pieces| - 2] == pieces[..|pieces| - 1][1..];
    } else {
      assert pieces[..1] == [pieces[0]];
    }
  }

  /** `value.split("@")[-1]`: the text after the last '@', or all of `email` when it has none. */
  function Domain(email: string): (d: string)
    ensures AfterLastAt(email, d)
    ensures '@' !in email ==> d == email
  {
    var pieces := Split(email, '@');
    if |pieces| >= 2 then
      JoinLast(pieces, '@');
      pieces[|pieces| - 1]
    else
      pieces[0]
  }

  /** `d` is what follows the last '@' of `email`, or all of `email` when it has none. */
  predicate AfterLastAt(email: string, d: string) {
    && |d| <= |email|
    && email[|email| - |d|..] == d
    && '@' !in d
    && (|d| == |email| || email[|email| - |d| - 1] == '@')
  }

  /** At most one suffix of an email is what follows its last '@'. */
  lemma AfterLastAtUnique(email: string, d1: string, d2: string)
    requires AfterLastAt(email, d1) && AfterLastAt(email, d2)
    ensures d1 == d2
  {
  }

  /** The domains the validator accepts. */
  const ValidDomains: seq<string> := ["hdfc.com", "icici.com"]

  /** The message of the validator's error. */
  const DomainError: string := "Not a valid domain"

  /** `email_validator`: the email unchanged when its domain is allowed, otherwise the domain error. */
  function ValidateEmail(value: string): (r: Result<string, string>)
    ensures r.Success? <==> Domain(value) == "hdfc.com" || Domain(value) == "icici.com"
    ensures r.Success? ==> r.value == value
    ensures r.Failure? ==> r.error == "Not a valid domain"
  {
    if Domain(value) in ValidDomains then Success(value) else Failure(DomainError)
  }

  /** `value` is `d` itself, or ends in an '@' followed by `d`. */
  predicate EndsWithDomain(value: string, d: string) {
    value == d || (|value| > |d| && value[|value| - |d| - 1..] == ['@'] + d)
  }

  /** For a candidate free of '@', being the domain is being what the email ends with. */
  lemma DomainIsIff(value: string, d: string)
    requires '@' !in d
    ensures Domain(value) == d <==> EndsWithDomain(value, d)
  {
    if EndsWithDomain(value, d) {
      if value != d {
        assert value[|value| - |d|..] == value[|value| - |d| - 1..][1..];
      }
      AfterLastAtUnique(value, d, Domain(value));
    }
  }

  /** An email passes exactly when it ends in "@hdfc.com" or "@icici.com", or is one of those
      domains alone. */
  lemma EmailAcceptedIff(value: string)
    ensures ValidateEmail(value).Success? <==>
      EndsWithDomain(value, "hdfc.com") || EndsWithDomain(value, "icici.com")
  {
    DomainIsIff(value, "hdfc.com");
    DomainIsIff(value, "icici.com");
  }

  /** Lower-case ASCII letters. */
  predicate IsLower(c: char) {
    'a' <= c <= 'z'
  }

  /** `str.upper` on one character, restricted to ASCII. */
  function UpperChar(c: char): char {
    if IsLower(c) then (c as int - 32) as char else c
  }

  /** `transform_name`: the name upper-cased. */
  function TransformName(s: string): (r: string)
    ensures |r| == |s|
    ensures forall i :: 0 <= i < |s| ==> !IsLower(r[i])
    ensures forall i :: 0 <= i < |s| && !IsLower(s[i]) ==> r[i] == s[i]
    ensures forall i :: 0 <= i < |s| && IsLower(s[i]) ==> r[i] as int == s[i] as int - 32
  {
    if |s| == 0 then [] else [UpperChar(s[0])] + TransformName(s[1..])
  }

  /** Upper-casing twice is upper-casing once. */
  lemma TransformNameIdempotent(s: string)
    ensures TransformName(TransformName(s)) == TransformName(s)
  {
  }

  /** The validated model: every field is required and carries no constraint of its own. */
  datatype Patient = Patient(
    name: string,
    email: string,
    age: int,
    weight: real,
    married: bool,
    allergies: seq<string>,
    contactDetails: map<string, string>)

  /** `Patient(**info)`: runs both field validators; the result carries the transformed name,
      and an error names the failing field with its message. */
  function Validate(info: Patient): (r: Result<Patient, map<string, string>>)
    ensures r.Success? <==> ValidateEmail(info.email).Success?
    ensures r.Success? ==> r.value == info.(name := TransformName(info.name))
    ensures r.Failure? ==> r.error == map["email" := "Not a valid domain"]
  {
    match ValidateEmail(info.email)
    case Success(email) => Success(info.(name := TransformName(info.name), email := email))
    case Failure(msg) => Failure(map["email" := msg])
  }

  /** The module's sample address, and the kind of address the comment beside the validator
      says must be refused. */
  const SampleEmail := "gaurav@hdfc.com"
  const GmailEmail := "abc@gmail.com"

  /** The module's sample patient. */
  const SampleInfo := Patient("Gaurav", SampleEmail, 22, 75.2, false, ["dust", "pollen"],
                              map["phone" := "12344"])

  /** The domain of an email, read off a suffix that follows its last '@'. */
  lemma DomainOf(email: string, d: string)
    requires AfterLastAt(email, d)
    ensures Domain(email) == d
  {
    AfterLastAtUnique(email, Domain(email), d);
  }

  /** The sample's name becomes "GAURAV". */
  lemma SampleName()
    ensures TransformName("Gaurav") == "GAURAV"
  {
  }

  /** The domain of the sample address. */
  lemma SampleDomain()
    ensures Domain(SampleEmail) == "hdfc.com"
  {
    assert AfterLastAt(SampleEmail, "hdfc.com") by {
      assert |SampleEmail| == 15 && SampleEmail[6] == '@' && SampleEmail[7..] == "hdfc.com";
    }
    DomainOf(SampleEmail, "hdfc.com");
  }

  /** The domain of the gmail.com address. */
  lemma GmailDomain()
    ensures Domain(GmailEmail) == "gmail.com"
  {
    assert AfterLastAt(GmailEmail, "gmail.com") by {
      assert |GmailEmail| == 13 && GmailEmail[3] == '@' && GmailEmail[4..] == "gmail.com";
    }
    DomainOf(GmailEmail, "gmail.com");
  }

  /** The sample is accepted with its name upper-cased. */
  lemma SampleAccepted()
    ensures Validate(SampleInfo) == Success(SampleInfo.(name := "GAURAV"))
  {
    SampleDomain();
    assert ValidateEmail(SampleEmail) == Success(SampleEmail);
    SampleName();
  }

  /** A gmail.com address is rejected with the domain error. */
  lemma GmailRejected()
    ensures ValidateEmail(GmailEmail) == Failure("Not a valid domain")
  {
    GmailDomain();
  }
}

=== FILE: health.dfy ===
/** The derived fields of a patient record: body-mass index and its verdict. */
module Health {

  /** Python's `round(x, 2)` taken over exact reals: the nearest multiple of 0.01,
      and on an exact tie the multiple whose hundredths count is even. */
  function Round2(x: real): (r: real)
    ensures -0.005 <= r - x <= 0.005
    ensures (r * 100.0).Floor as real == r * 100.0
    ensures x * 100.0 - (x * 100.0).Floor as real == 0.5 ==> (r * 100.0).Floor % 2 == 0
  {
    var scaled := x * 100.0;
    var n := scaled.Floor;
    var frac := scaled - n as real;
    var k := if frac < 0.5 then n
             else if frac > 0.5 then n + 1
             else if n % 2 == 0 then n
             else n + 1;
    k as real / 100.0
  }

  /** Rounding to hundredths never reverses the order of two values. */
  lemma Round2Monotone(x: real, y: real)
    requires x <= y
    ensures Round2(x) <= Round2(y)
  {
    var nx, ny := (x * 100.0).Floor, (y * 100.0).Floor;
    assert nx <= ny;
    if nx == ny {
      var fx, fy := x * 100.0 - nx as real, y * 100.0 - ny as real;
      assert fx <= fy;
    }
  }

  /** `weight / height**2` rounded to two decimals; `height` is positive for every validated record. */
  function Bmi(weight: real, height: real): (r: real)
    requires height > 0.0
    ensures -0.005 <= r - weight / (height * height) <= 0.005
    ensures (r * 100.0).Floor as real == r * 100.0
    ensures var q := weight / (height * height);
            q * 100.0 - (q * 100.0).Floor as real == 0.5 ==> (r * 100.0).Floor % 2 == 0
  {
    Round2(weight / (height * height))
  }

  /** The four verdict categories, in increasing order of body mass. */
  datatype Category = Underweight | Normal | Overweight | Obese {

    /** Position in the order Underweight < Normal < Overweight < Obese. */
    function Rank(): nat {
      match this
      case Underweight => 0
      case Normal => 1
      case Overweight => 2
      case Obese => 3
    }

    /** The string the service stores and returns for this category. */
    function Label(): string {
      match this
      case Underweight => "Underweight"
      case Normal => "Normal"
      case Overweight => "Overweight"
      case Obese => "Obese"
    }
  }

  /** The bmi values at which the verdict moves up one category. */
  const Cutoffs: seq<real> := [18.5, 25.0, 30.0]

  /** The category of a bmi value: its rank is the number of cut-offs at or below the value. */
  function Verdict(bmi: real): (c: Category)
    ensures forall i :: 0 <= i < |Cutoffs| ==> (i < c.Rank() <==> Cutoffs[i] <= bmi)
  {
    if bmi < 18.5 then Underweight
    else if bmi < 25.0 then Normal
    else if bmi < 30.0 then Overweight
    else Obese
  }

  /** Each category covers a half-open band, closed below, and together the bands cover the real line. */
  lemma VerdictBands(bmi: real)
    ensures Verdict(bmi) == Underweight <==> bmi < 18.5
    ensures Verdict(bmi) == Normal <==> 18.5 <= bmi < 25.0
    ensures Verdict(bmi) == Overweight <==> 25.0 <= bmi < 30.0
    ensures Verdict(bmi) == Obese <==> 30.0 <= bmi
  {
  }

  /** A larger bmi never gets a lower category. */
  lemma VerdictMonotone(b1: real, b2: real)
    requires b1 <= b2
    ensures Verdict(b1).Rank() <= Verdict(b2).Rank()
  {
  }

  /** The verdict is one of exactly four strings, and distinct categories have distinct strings. */
  lemma VerdictLabels(bmi: real)
    ensures Verdict(bmi).Label() in {"Underweight", "Normal", "Overweight", "Obese"}
    ensures forall c: Category :: c.Label() == Verdict(bmi).Label() ==> c == Verdict(bmi)
  {
  }

  /** Dividing two ordered weights by the same squared height keeps their order. */
  lemma RatioMonotone(w1: real, w2: real, height: real)
    requires height > 0.0
    requires w1 <= w2
    ensures w1 / (height * height) <= w2 / (height * height)
  {
  }

  /** For a fixed height, a heavier patient never gets a lower verdict, rounding included. */
  lemma HeavierNeverLowerVerdict(w1: real, w2: real, height: real)
    requires height > 0.0
    requires w1 <= w2
    ensures Verdict(Bmi(w1, height)).Rank() <= Verdict(Bmi(w2, height)).Rank()
  {
    RatioMonotone(w1, w2, height);
    Round2Monotone(w1 / (height * height), w2 / (height * height));
    VerdictMonotone(Bmi(w1, height), Bmi(w2, height));
  }
}

=== FILE: patients.dfy ===
/** The record schema of the patient service: the `Patient` model with its computed fields,
    the sparse `PatientUpdate` model, and the merge of an update into a stored record. */
module Patients {
  import opened Results
  import opened Health

  /** The values `gender` may take. */
  const Genders: set<string> := {"male", "female", "other"}

  /** One value of the persisted JSON document: the field mapping stored under a patient id.
      Every key may be missing, since the document is an ordinary file; `bmi` and `verdict`
      are present in every entry the service itself writes. */
  datatype Entry = Entry(
    name: Option<string>,
    city: Option<string>,
    age: Option<int>,
    gender: Option<string>,
    height: Option<real>,
    weight: Option<real>,
    bmi: Option<real>,
    verdict: Option<string>)

  /** A validated patient: every field present and within its constraints. */
  datatype Patient = Patient(
    id: string,
    name: string,
    city: string,
    age: int,
    gender: string,
    height: real,
    weight: real)
  {
    /** The field constraints of the model: 0 < age < 120, a known gender, positive height and weight. */
    predicate Valid() {
      0 < age < 120 && gender in Genders && height > 0.0 && weight > 0.0
    }
  }

  /** The fields of the model, `id` included. */
  const FieldNames: set<string> := {"id", "name", "city", "age", "gender", "height", "weight"}

  /** The named field is missing or out of range. */
  predicate FieldFails(id: Option<string>, e: Entry, field: string) {
    if field == "id" then id.None?
    else if field == "name" then e.name.None?
    else if field == "city" then e.city.None?
    else if field == "age" then e.age.None? || e.age.value <= 0 || e.age.value >= 120
    else if field == "gender" then e.gender.None? || e.gender.value !in Genders
    else if field == "height" then e.height.None? || e.height.value <= 0.0
    else if field == "weight" then e.weight.None? || e.weight.value <= 0.0
    else false
  }

  /** The names of the fields that are missing or out of range; the model reports all of them at once. */
  function Violations(id: Option<string>, e: Entry): set<string> {
    set field | field in FieldNames && FieldFails(id, e, field)
  }

  /** `Patient(**fields)`: builds a patient from an id and a field mapping, ignoring the
      computed keys `bmi` and `verdict`, or fails with the set of offending fields. */
  function Validate(id: Option<string>, e: Entry): (r: Result<Patient, set<string>>)
    ensures r.Success? <==>
      && id.Some? && e.name.Some? && e.city.Some?
      && e.age.Some? && 0 < e.age.value < 120
      && e.gender.Some? && e.gender.value in Genders
      && e.height.Some? && e.height.value > 0.0
      && e.weight.Some? && e.weight.value > 0.0
    ensures r.Success? ==>
      && r.value.Valid()
      && r.value == Patient(id.value, e.name.value, e.city.value, e.age.value,
                            e.gender.value, e.height.value, e.weight.value)
    ensures r.Failure? ==> r.error != {}
    ensures r.Failure? ==> ("id" in r.error <==> id.None?)
    ensures r.Failure? ==> ("name" in r.error <==> e.name.None?)
    ensures r.Failure? ==> ("city" in r.error <==> e.city.None?)
    ensures r.Failure? ==> ("age" in r.error <==> e.age.None? || !(0 < e.age.value < 120))
    ensures r.Failure? ==> ("gender" in r.error <==> e.gender.None? || e.gender.value !in Genders)
    ensures r.Failure? ==> ("height" in r.error <==> e.height.None? || e.height.value <= 0.0)
    ensures r.Failure? ==> ("weight" in r.error <==> e.weight.None? || e.weight.value <= 0.0)
    ensures r.Failure? ==> r.error <= FieldNames
  {
    var bad := Violations(id, e);
    assert FieldFails(id, e, "id") ==> "id" in bad;
    assert FieldFails(id, e, "name") ==> "name" in bad;
    assert FieldFails(id, e, "city") ==> "city" in bad;
    assert FieldFails(id, e, "age") ==> "age" in bad;
    assert FieldFails(id, e, "gender") ==> "gender" in bad;
    assert FieldFails(id, e, "height") ==> "height" in bad;
    assert FieldFails(id, e, "weight") ==> "weight" in bad;
    if bad == {} then
      Success(Patient(id.value, e.name.value, e.city.value, e.age.value,
                      e.gender.value, e.height.value, e.weight.value))
    else
      Failure(bad)
  }

  /** `model_dump(exclude='id')`: the entry stored for a valid patient, computed fields included. */
  function Dump(p: Patient): (e: Entry)
    requires p.Valid()
    ensures Canonical(e)
    ensures e.name == Some(p.name) && e.city == Some(p.city) && e.age == Some(p.age)
    ensures e.gender == Some(p.gender) && e.height == Some(p.height) && e.weight == Some(p.weight)
  {
    var bmi := Bmi(p.weight, p.height);
    Entry(Some(p.name), Some(p.city), Some(p.age), Some(p.gender), Some(p.height), Some(p.weight),
          Some(bmi), Some(Verdict(bmi).Label()))
  }

  /** An entry as the service writes it: a valid patient's fields, with `bmi` and `verdict`
      consistent with its height and weight. */
  predicate Canonical(e: Entry) {
    && e.name.Some? && e.city.Some?
    && e.age.Some? && 0 < e.age.value < 120
    && e.gender.Some? && e.gender.value in Genders
    && e.height.Some? && e.height.value > 0.0
    && e.weight.Some? && e.weight.value > 0.0
    && e.bmi == Some(Bmi(e.weight.value, e.height.value))
    && e.verdict == Some(Verdict(Bmi(e.weight.value, e.height.value)).Label())
  }

  /** Dumping a valid patient gives a canonical entry, and validating that entry under the
      same id gives the patient back. */
  lemma DumpRoundTrip(p: Patient)
    requires p.Valid()
    ensures Canonical(Dump(p))
    ensures Validate(Some(p.id), Dump(p)) == Success(p)
  {
  }

  /** Validating a canonical entry and dumping it again reproduces the entry exactly. */
  lemma CanonicalFixpoint(id: string, e: Entry)
    requires Canonical(e)
    ensures Validate(Some(id), e).Success?
    ensures Dump(Validate(Some(id), e).value) == e
  {
  }

  /** One optional field of an update: not sent, sent as `null`, or sent with a value.
      `model_dump(exclude_unset=True)` keeps the last two and drops the first. */
  datatype Patch<+T> = Unset | Null | Set(value: T)

  /** The body of an update request; every field optional. */
  datatype PatientUpdate = PatientUpdate(
    name: Patch<string>,
    city: Patch<string>,
    age: Patch<int>,
    gender: Patch<string>,
    height: Patch<real>,
    weight: Patch<real>)

  /** The update does not mention the named field. */
  predicate LeavesAlone(u: PatientUpdate, field: string) {
    if field == "name" then u.name.Unset?
    else if field == "city" then u.city.Unset?
    else if field == "age" then u.age.Unset?
    else if field == "gender" then u.gender.Unset?
    else if field == "height" then u.height.Unset?
    else if field == "weight" then u.weight.Unset?
    else false
  }

  /** The update sends `null` for the named field. */
  predicate SendsNull(u: PatientUpdate, field: string) {
    if field == "name" then u.name.Null?
    else if field == "city" then u.city.Null?
    else if field == "age" then u.age.Null?
    else if field == "gender" then u.gender.Null?
    else if field == "height" then u.height.Null?
    else if field == "weight" then u.weight.Null?
    else false
  }

  /** The update that sets no field. */
  const NoChange := PatientUpdate(Unset, Unset, Unset, Unset, Unset, Unset)

  /** The fields of an update body that break the constraints of `PatientUpdate`. */
  function UpdateViolations(u: PatientUpdate): set<string> {
    (if u.age.Set? && u.age.value <= 0 then {"age"} else {})
    + (if u.gender.Set? && u.gender.value !in Genders then {"gender"} else {})
    + (if u.height.Set? && u.height.value <= 0.0 then {"height"} else {})
    + (if u.weight.Set? && u.weight.value <= 0.0 then {"weight"} else {})
  }

  /** Validation of an update body: only the lower bounds and the gender set are checked,
      and only for fields given a value. */
  function ValidateUpdate(u: PatientUpdate): (r: Result<PatientUpdate, set<string>>)
    ensures r.Success? <==>
      && (u.age.Set? ==> u.age.value > 0)
      && (u.gender.Set? ==> u.gender.value in Genders)
      && (u.height.Set? ==> u.height.value > 0.0)
      && (u.weight.Set? ==> u.weight.value > 0.0)
    ensures r.Success? ==> r.value == u
    ensures r.Failure? ==> r.error != {}
  {
    var bad := UpdateViolations(u);
    if bad == {} then Success(u) else Failure(bad)
  }

  /** The field after applying one patch to it. */
  function Overlay<T>(p: Patch<T>, stored: Option<T>): Option<T> {
    match p
    case Unset => stored
    case Null => None
    case Set(v) => Some(v)
  }

  /** Writes every field sent in the update over the stored entry; `bmi` and `verdict` are
      never part of an update and keep their stored values. */
  function Merge(e: Entry, u: PatientUpdate): (r: Entry)
    ensures u.name.Unset? ==> r.name == e.name
    ensures u.city.Unset? ==> r.city == e.city
    ensures u.age.Unset? ==> r.age == e.age
    ensures u.gender.Unset? ==> r.gender == e.gender
    ensures u.height.Unset? ==> r.height == e.height
    ensures u.weight.Unset? ==> r.weight == e.weight
    ensures r.bmi == e.bmi && r.verdict == e.verdict
    ensures u.name.Set? ==> r.name == Some(u.name.value)
    ensures u.city.Set? ==> r.city == Some(u.city.value)
    ensures u.age.Set? ==> r.age == Some(u.age.value)
    ensures u.gender.Set? ==> r.gender == Some(u.gender.value)
    ensures u.height.Set? ==> r.height == Some(u.height.value)
    ensures u.weight.Set? ==> r.weight == Some(u.weight.value)
    ensures u.name.Null? ==> r.name.None?
    ensures u.city.Null? ==> r.city.None?
    ensures u.age.Null? ==> r.age.None?
    ensures u.gender.Null? ==> r.gender.None?
    ensures u.height.Null? ==> r.height.None?
    ensures u.weight.Null? ==> r.weight.None?
  {
    e.(name := Overlay(u.name, e.name),
       city := Overlay(u.city, e.city),
       age := Overlay(u.age, e.age),
       gender := Overlay(u.gender, e.gender),
       height := Overlay(u.height, e.height),
       weight := Overlay(u.weight, e.weight))
  }

  /** An update that sets nothing leaves the entry as it is. */
  lemma MergeNoChange(e: Entry)
    ensures Merge(e, NoChange) == e
  {
  }

  /** The fields of a valid patient always pass as an update, but an update may carry an age
      the full model rejects: the update model checks only `age > 0`. */
  lemma UpdateWeakerThanPatient(p: Patient)
    requires p.Valid()
    ensures ValidateUpdate(PatientUpdate(Set(p.name), Set(p.city), Set(p.age),
                                         Set(p.gender), Set(p.height), Set(p.weight))).Success?
    ensures var u := PatientUpdate(Unset, Unset, Set(120), Unset, Unset, Unset);
            ValidateUpdate(u).Success? && !p.(age := 120).Valid()
  {
  }
}

=== FILE: pydantic_demo.dfy ===
/** The patient model that states its constraints declaratively on the fields: a bounded name,
    an age in (0, 120], a positive weight and at most five allergies. */
module PydanticDemo {
  import opened Results
  import Patients

  /** The model's fields. `married` and `allergies` may be omitted and then stay `None`. */
  datatype Patient = Patient(
    name: string,
    email: string,
    linkedinUrl: string,
    age: int,
    weight: real,
    married: Option<bool>,
    allergies: Option<seq<string>>,
    contactDetails: map<string, string>)

  /** The fields whose declared constraint fails; every failing field is reported. */
  function Violations(p: Patient): set<string> {
    (if |p.name| > 50 then {"name"} else {})
    + (if p.age <= 0 || p.age > 120 then {"age"} else {})
    + (if p.weight <= 0.0 then {"weight"} else {})
    + (if p.allergies.Some? && |p.allergies.value| > 5 then {"allergies"} else {})
  }

  /** `Patient(**info)`: the record itself when every constraint holds, otherwise the failing fields. */
  function Validate(p: Patient): (r: Result<Patient, set<string>>)
    ensures r.Success? <==>
      && |p.name| <= 50
      && 0 < p.age <= 120
      && p.weight > 0.0
      && (p.allergies == None || |p.allergies.value| <= 5)
    ensures r.Success? ==> r.value == p
    ensures r.Failure? ==> r.error != {} && r.error <= {"name", "age", "weight", "allergies"}
    ensures r.Failure? ==> ("age" in r.error <==> !(0 < p.age <= 120))
    ensures r.Failure? ==> ("name" in r.error <==> |p.name| > 50)
    ensures r.Failure? ==> ("weight" in r.error <==> p.weight <= 0.0)
    ensures r.Failure? ==> ("allergies" in r.error <==> p.allergies.Some? && |p.allergies.value| > 5)
  {
    var bad := Violations(p);
    if bad == {} then Success(p) else Failure(bad)
  }

  /** The module's sample, with `married` and `allergies` omitted. */
  const SampleInfo := Patient("Gaurav", "gaurav@gmail.com", "http://linkedin.com/1322", 22, 75.2,
                              None, None, map["phone" := "12344"])

  /** The sample validates and keeps `married` and `allergies` at `None`. */
  lemma SampleAccepted()
    ensures Validate(SampleInfo) == Success(SampleInfo)
    ensures Validate(SampleInfo).value.married == None
    ensures Validate(SampleInfo).value.allergies == None
  {
  }

  /** Age 120 is the one age this model accepts and the record model of the service rejects:
      the upper bound is inclusive here and exclusive there. */
  lemma AgeBoundsDiffer(p: Patient, id: string, city: string, gender: string, height: real)
    requires Validate(p).Success?
    requires gender in Patients.Genders && height > 0.0
    ensures var q := Patients.Patient(id, p.name, city, p.age, gender, height, p.weight);
            q.Valid() <==> p.age != 120
  {
  }
}

=== FILE: results.dfy ===
/** Optional values and success/failure results shared by every module of the model. */
module Results {

  /** A value that may be absent: a JSON key that is missing, or a field left at its default. */
  datatype Option<+T> = None | Some(value: T) {

    /** The wrapped value, or `default` when there is none (Python's `dict.get(key, default)`). */
    function GetOr(default: T): T {
      match this
      case Some(v) => v
      case None => default
    }
  }

  /** The outcome of a validation or a request handler: a value, or the error it raised. */
  datatype Result<+T, +E> = Success(value: T) | Failure(error: E)
}

=== FILE: service.dfy ===
/** The service as a state machine over the persisted document: one request in, one reply out,
    and the document the request leaves behind. */
module Service {
  import opened Results
  import opened Health
  import opened Patients
  import opened Store

  /** The requests of the service that touch the document. */
  datatype Request =
    | ViewAll
    | View(id: string)
    | Sort(sortBy: string, order: string)
    | Create(body: NewPatient)
    | Update(id: string, update: PatientUpdate)
    | Delete(id: string)
  {
    /** The request only reads the document. */
    predicate IsQuery() {
      ViewAll? || View? || Sort?
    }

    /** The one id a mutating request may change. */
    function Target(): Option<string> {
      match this
      case Create(body) => body.id
      case Update(id, _) => Some(id)
      case Delete(id) => Some(id)
      case _ => None
    }
  }

  /** What the service answers. */
  datatype Reply =
    | Whole(doc: Document)
    | One(entry: Entry)
    | Listing(entries: seq<Entry>)
    | Done
    | Failed(error: Error)

  /** The document after a mutating handler: its result when it succeeded, otherwise the
      document as loaded, since a failed handler never reaches `save_data`. */
  function Commit(doc: Document, r: Result<Document, Error>): (Document, Reply) {
    match r
    case Success(next) => (next, Done)
    case Failure(e) => (doc, Failed(e))
  }

  /** One request against the document; `keys` is the iteration order of the loaded dict. */
  function Step(doc: Document, keys: seq<string>, req: Request): (out: (Document, Reply))
    requires IsKeyOrder(keys, doc)
    ensures out.1.Failed? ==> out.0 == doc
    ensures req.IsQuery() ==> out.0 == doc
    ensures forall k :: Some(k) != req.Target() ==>
      (k in out.0 <==> k in doc) && (k in doc ==> out.0[k] == doc[k])
    ensures req.ViewAll? ==> out.1 == Whole(doc)
    ensures req.View? ==> out.1 == (if req.id in doc then One(doc[req.id]) else Failed(NotFound))
    ensures req.Sort? && SortPatients(doc, keys, req.sortBy, req.order).Success? ==>
      out.1 == Listing(SortPatients(doc, keys, req.sortBy, req.order).value)
    ensures req.Sort? && SortPatients(doc, keys, req.sortBy, req.order).Failure? ==> out.1 == Failed(BadParam)
    ensures req.Create? && CreatePatient(doc, req.body).Success? ==>
      out == (CreatePatient(doc, req.body).value, Done)
    ensures req.Update? && UpdatePatient(doc, req.id, req.update).Success? ==>
      out == (UpdatePatient(doc, req.id, req.update).value, Done)
    ensures req.Delete? && DeletePatient(doc, req.id).Success? ==>
      out == (DeletePatient(doc, req.id).value, Done)
    ensures req.Create? && CreatePatient(doc, req.body).Failure? ==>
      out.1 == Failed(CreatePatient(doc, req.body).error)
    ensures req.Update? && UpdatePatient(doc, req.id, req.update).Failure? ==>
      out.1 == Failed(UpdatePatient(doc, req.id, req.update).error)
    ensures req.Delete? ==> (out.1 == Done <==> req.id in doc)
    ensures req.Delete? && DeletePatient(doc, req.id).Failure? ==> out == (doc, Failed(NotFound))
  {
    match req
    case ViewAll => (doc, Whole(doc))
    case View(id) =>
      (match ViewPatient(doc, id)
       case Success(e) => (doc, One(e))
       case Failure(err) => (doc, Failed(err)))
    case Sort(sortBy, order) =>
      (match SortPatients(doc, keys, sortBy, order)
       case Success(es) => (doc, Listing(es))
       case Failure(err) => (doc, Failed(err)))
    case Create(body) => Commit(doc, CreatePatient(doc, body))
    case Update(id, u) => Commit(doc, UpdatePatient(doc, id, u))
    case Delete(id) => Commit(doc, DeletePatient(doc, id))
  }

  /** Every entry of the document is as the service writes it. */
  predicate AllCanonical(doc: Document) {
    forall k :: k in doc ==> Canonical(doc[k])
  }

  /** A document the service alone has written stays that way after any request. */
  lemma StepKeepsCanonical(doc: Document, keys: seq<string>, req: Request)
    requires IsKeyOrder(keys, doc)
    requires AllCanonical(doc)
    ensures AllCanonical(Step(doc, keys, req).0)
  {
  }

  /** Creating a patient and then viewing it returns the six fields sent, with `bmi` and
      `verdict` computed from them. */
  lemma CreateThenView(doc: Document, body: NewPatient)
    requires CreatePatient(doc, body).Success?
    ensures var after := CreatePatient(doc, body).value;
            var f := body.fields;
            var bmi := Bmi(f.weight.value, f.height.value);
            ViewPatient(after, body.id.value)
              == Success(Entry(f.name, f.city, f.age, f.gender, f.height, f.weight,
                               Some(bmi), Some(Verdict(bmi).Label())))
  {
  }

  /** On an entry the service wrote, an update that sets no field stores the same document. */
  lemma EmptyUpdateIsNoOp(doc: Document, id: string)
    requires id in doc && Canonical(doc[id])
    ensures UpdatePatient(doc, id, NoChange) == Success(doc)
  {
    MergeNoChange(doc[id]);
    CanonicalFixpoint(id, doc[id]);
    assert doc[id := doc[id]] == doc;
  }

  /** After a successful update every field the update left alone keeps its stored value,
      every field it sent holds the sent value, and `bmi`/`verdict` follow the new height and
      weight; when neither height nor weight was sent they equal the stored ones. */
  lemma UpdateChangesOnlySentFields(doc: Document, id: string, u: PatientUpdate)
    requires UpdatePatient(doc, id, u).Success?
    ensures var e, was := UpdatePatient(doc, id, u).value[id], doc[id];
            && (u.name.Unset? ==> e.name == was.name) && (u.name.Set? ==> e.name == Some(u.name.value))
            && (u.city.Unset? ==> e.city == was.city) && (u.city.Set? ==> e.city == Some(u.city.value))
            && (u.age.Unset? ==> e.age == was.age) && (u.age.Set? ==> e.age == Some(u.age.value))
            && (u.gender.Unset? ==> e.gender == was.gender)
            && (u.gender.Set? ==> e.gender == Some(u.gender.value))
            && (u.height.Unset? ==> e.height == was.height)
            && (u.height.Set? ==> e.height == Some(u.height.value))
            && (u.weight.Unset? ==> e.weight == was.weight)
            && (u.weight.Set? ==> e.weight == Some(u.weight.value))
            && e.bmi == Some(Bmi(e.weight.value, e.height.value))
            && e.verdict == Some(Verdict(Bmi(e.weight.value, e.height.value)).Label())
            && (Canonical(was) && u.height.Unset? && u.weight.Unset? ==>
                  e.bmi == was.bmi && e.verdict == was.verdict)
  {
  }

  /** On an entry the service wrote, an update of the city alone changes the city and nothing else. */
  lemma CityUpdateChangesOnlyCity(doc: Document, id: string, city: string)
    requires id in doc && Canonical(doc[id])
    ensures var u := NoChange.(city := Set(city));
            UpdatePatient(doc, id, u) == Success(doc[id := doc[id].(city := Some(city))])
  {
  }

  /** On an entry the service wrote, an update of the weight alone changes the weight and
      recomputes `bmi` and `verdict` from it; everything else stays. */
  lemma WeightUpdateRecomputesVerdict(doc: Document, id: string, weight: real)
    requires id in doc && Canonical(doc[id])
    requires weight > 0.0
    ensures var bmi := Bmi(weight, doc[id].height.value);
            UpdatePatient(doc, id, NoChange.(weight := Set(weight)))
              == Success(doc[id := doc[id].(weight := Some(weight), bmi := Some(bmi),
                                            verdict := Some(Verdict(bmi).Label()))])
  {
  }

  /** On an entry the service wrote, an update of the height alone changes the height and
      recomputes `bmi` and `verdict` from it; everything else stays. */
  lemma HeightUpdateRecomputesVerdict(doc: Document, id: string, height: real)
    requires id in doc && Canonical(doc[id])
    requires height > 0.0
    ensures var bmi := Bmi(doc[id].weight.value, height);
            UpdatePatient(doc, id, NoChange.(height := Set(height)))
              == Success(doc[id := doc[id].(height := Some(height), bmi := Some(bmi),
                                            verdict := Some(Verdict(bmi).Label()))])
  {
  }

  /** An age of 120 or more passes the update model but not the re-validation of the merged
      record, so the request fails and the document stays as it was. */
  lemma OldAgeRejectedOnMerge(doc: Document, keys: seq<string>, id: string, age: int)
    requires IsKeyOrder(keys, doc)
    requires id in doc
    requires age >= 120
    ensures ValidateUpdate(NoChange.(age := Set(age))).Success?
    ensures var out := Step(doc, keys, Update(id, NoChange.(age := Set(age))));
            && out.0 == doc
            && out.1.Failed? && out.1.error.ServerError? && "age" in out.1.error.fields
  {
  }

  /** A stored field that is missing or out of range blocks every update that leaves the field
      alone, even though the update itself is valid. */
  lemma StoredViolationBlocksUpdate(doc: Document, id: string, u: PatientUpdate, field: string)
    requires id in doc
    requires ValidateUpdate(u).Success?
    requires field in FieldNames && LeavesAlone(u, field)
    requires FieldFails(Some(id), doc[id], field)
    ensures var r := UpdatePatient(doc, id, u);
            r.Failure? && r.error.ServerError? && field in r.error.fields
  {
  }

  /** An update that sends `null` for any of the six fields is rejected by re-validation of the
      merged record. */
  lemma NullFieldRejected(doc: Document, id: string, u: PatientUpdate, field: string)
    requires id in doc
    requires ValidateUpdate(u).Success?
    requires SendsNull(u, field)
    ensures var r := UpdatePatient(doc, id, u);
            r.Failure? && r.error.ServerError? && field in r.error.fields
  {
  }

  /** The three-entry example: sorting by bmi, descending, lists 30.5, 24.9, 18.0. */
  lemma SortByBmiDescending()
    ensures
      var e1 := Entry(None, None, None, None, None, None, Some(18.0), None);
      var e2 := Entry(None, None, None, None, None, None, Some(30.5), None);
      var e3 := Entry(None, None, None, None, None, None, Some(24.9), None);
      var doc := map["P001" := e1, "P002" := e2, "P003" := e3];
      SortPatients(doc, ["P001", "P002", "P003"], "bmi", "desc") == Success([e2, e3, e1])
  {
    var e1 := Entry(None, None, None, None, None, None, Some(18.0), None);
    var e2 := Entry(None, None, None, None, None, None, Some(30.5), None);
    var e3 := Entry(None, None, None, None, None, None, Some(24.9), None);
    var doc := map["P001" := e1, "P002" := e2, "P003" := e3];
    var keys := ["P001", "P002", "P003"];
    var key := KeyOf("bmi");
    assert ValuesInOrder(doc, keys) == [e1, e2, e3] by {
      assert ValuesInOrder(doc, keys)[0] == e1;
    }
    SortThreeDescending(e1, e2, e3, key);
  }

  /** Three values whose keys are ordered middle, last, first come out in that order when
      sorted descending. */
  lemma SortThreeDescending<T>(a: T, b: T, c: T, key: T -> real)
    requires key(b) > key(c) > key(a)
    ensures Sorting.SortBy([a, b, c], key, true) == [b, c, a]
  {
    assert Sorting.SortBy([c], key, true) == [c] by {
      assert [c][1..] == [];
    }
    assert Sorting.SortBy([b, c], key, true) == [b, c] by {
      assert [b, c][1..] == [c];
    }
    assert Sorting.Insert(a, [c], key, true) == [c, a] by {
      assert [c][1..] == [];
    }
    assert Sorting.Insert(a, [b, c], key, true) == [b, c, a] by {
      assert [b, c][1..] == [c];
    }
    assert [a, b, c][1..] == [b, c];
  }
}

=== FILE: sorting.dfy ===
/** Python's `sorted(values, key=..., reverse=...)` over a real-valued key, as a stable insertion sort. */
module Sorting {

  /** `a` may come before `b`: not greater when ascending, not smaller when descending. */
  predicate InOrder(a: real, b: real, desc: bool) {
    if desc then a >= b else a <= b
  }

  /** Every earlier element may come before every later one. */
  predicate SortedBy<T>(s: seq<T>, key: T -> real, desc: bool) {
    forall i, j :: 0 <= i < j < |s| ==> InOrder(key(s[i]), key(s[j]), desc)
  }

  /** Inserts `x` into a sorted sequence in front of the first element it may precede. */
  function Insert<T>(x: T, s: seq<T>, key: T -> real, desc: bool): (r: seq<T>)
    requires SortedBy(s, key, desc)
    ensures SortedBy(r, key, desc)
    ensures multiset(r) == multiset(s) + multiset{x}
    ensures r[0] == x || r[0] == s[0]
  {
    if |s| == 0 || InOrder(key(x), key(s[0]), desc) then
      LeadSorted([x] + s, key, desc);
      [x] + s
    else
      var rest := Insert(x, s[1..], key, desc);
      LeadSorted([s[0]] + rest, key, desc);
      assert s == [s[0]] + s[1..];
      [s[0]] + rest
  }

  /** A sequence is sorted when its tail is sorted and its head may precede the tail's head. */
  lemma LeadSorted<T>(s: seq<T>, key: T -> real, desc: bool)
    requires |s| > 0
    requires SortedBy(s[1..], key, desc)
    requires |s| > 1 ==> InOrder(key(s[0]), key(s[1]), desc)
    ensures SortedBy(s, key, desc)
  {
  }

  /** A sorted permutation of `s`. */
  function SortBy<T>(s: seq<T>, key: T -> real, desc: bool): (r: seq<T>)
    ensures SortedBy(r, key, desc)
    ensures multiset(r) == multiset(s)
  {
    if |s| == 0 then []
    else
      assert s == [s[0]] + s[1..];
      Insert(s[0], SortBy(s[1..], key, desc), key, desc)
  }
}

=== FILE: store.dfy ===
/** The request handlers of the patient service as transitions over the persisted document,
    a map from patient id to stored entry. A handler that fails never saves, so the document
    it leaves behind is the one it loaded. */
module Store {
  import opened Results
  import opened Health
  import opened Patients
  import Sorting

  /** The persisted JSON document. */
  type Document = map<string, Entry>

  /** The errors a handler can answer with; the HTTP status each stands for is noted. */
  datatype Error =
    | NotFound                        // 404 on an unknown id
    | Conflict                        // 400 on creating an id that exists
    | BadParam                        // 404 on an unknown sort field or order
    | Invalid(fields: set<string>)    // 422 on a request body that fails validation
    | ServerError(fields: set<string>) // 500: the merged record of an update fails validation
                                       // inside the handler and nothing catches the exception;
                                       // the failing fields are kept for the model only

  /** The body of a create request: the patient's id, if sent, and its fields. */
  datatype NewPatient = NewPatient(id: Option<string>, fields: Entry)

  /** `GET /patient/{id}`: the stored entry. */
  function ViewPatient(doc: Document, id: string): (r: Result<Entry, Error>)
    ensures r.Success? <==> id in doc
    ensures r.Success? ==> r.value == doc[id]
    ensures r.Failure? ==> r.error == NotFound
  {
    if id in doc then Success(doc[id]) else Failure(NotFound)
  }

  /** The fields `GET /sort` accepts for `sort_by` and for `order`. */
  const SortFields: set<string> := {"height", "weight", "bmi"}
  const SortOrders: set<string> := {"asc", "desc"}

  /** The key an entry sorts by: the named field, or 0 when the entry lacks it. */
  function SortKey(field: string, e: Entry): (k: real)
    requires field in SortFields
    ensures field == "height" ==> k == (if e.height.Some? then e.height.value else 0.0)
    ensures field == "weight" ==> k == (if e.weight.Some? then e.weight.value else 0.0)
    ensures field == "bmi" ==> k == (if e.bmi.Some? then e.bmi.value else 0.0)
  {
    if field == "height" then e.height.GetOr(0.0)
    else if field == "weight" then e.weight.GetOr(0.0)
    else e.bmi.GetOr(0.0)
  }

  /** `lambda x: x.get(field, 0)`. */
  function KeyOf(field: string): Entry -> real
    requires field in SortFields
  {
    e => SortKey(field, e)
  }

  /** `keys` lists every id of the document exactly once: the iteration order of the loaded dict. */
  predicate IsKeyOrder(keys: seq<string>, doc: Document) {
    && (forall i :: 0 <= i < |keys| ==> keys[i] in doc)
    && (forall k :: k in doc ==> k in keys)
    && (forall i, j :: 0 <= i < j < |keys| ==> keys[i] != keys[j])
  }

  /** `data.values()` in the dict's iteration order. */
  function ValuesInOrder(doc: Document, keys: seq<string>): (vs: seq<Entry>)
    requires forall i :: 0 <= i < |keys| ==> keys[i] in doc
    ensures |vs| == |keys|
    ensures forall i :: 0 <= i < |keys| ==> vs[i] == doc[keys[i]]
  {
    if |keys| == 0 then [] else [doc[keys[0]]] + ValuesInOrder(doc, keys[1..])
  }

  /** `GET /sort`: every stored entry, ordered by `sort_by`, descending exactly when `order` is "desc". */
  function SortPatients(doc: Document, keys: seq<string>, sortBy: string, order: string)
    : (r: Result<seq<Entry>, Error>)
    requires IsKeyOrder(keys, doc)
    ensures r.Failure? <==> sortBy !in SortFields || order !in SortOrders
    ensures r.Failure? ==> r.error == BadParam
    ensures r.Success? ==> multiset(r.value) == multiset(ValuesInOrder(doc, keys))
    ensures r.Success? ==> |r.value| == |doc|
    ensures r.Success? && order == "asc" ==>
      forall i, j :: 0 <= i < j < |r.value| ==> SortKey(sortBy, r.value[i]) <= SortKey(sortBy, r.value[j])
    ensures r.Success? && order == "desc" ==>
      forall i, j :: 0 <= i < j < |r.value| ==> SortKey(sortBy, r.value[i]) >= SortKey(sortBy, r.value[j])
  {
    if sortBy !in SortFields then Failure(BadParam)
    else if order !in SortOrders then Failure(BadParam)
    else
      var values := ValuesInOrder(doc, keys);
      var sorted := Sorting.SortBy(values, KeyOf(sortBy), order == "desc");
      KeyOrderLength(keys, doc);
      assert |sorted| == |values| by {
        assert |multiset(sorted)| == |multiset(values)|;
      }
      Success(sorted)
  }

  /** A key order has exactly as many ids as the document. */
  lemma KeyOrderLength(keys: seq<string>, doc: Document)
    requires IsKeyOrder(keys, doc)
    ensures |keys| == |doc|
  {
    var ks := set i | 0 <= i < |keys| :: keys[i];
    assert ks == doc.Keys;
    DistinctCardinality(keys);
  }

  /** A sequence without repetitions has as many distinct elements as positions. */
  lemma {:induction false} DistinctCardinality(keys: seq<string>)
    requires forall i, j :: 0 <= i < j < |keys| ==> keys[i] != keys[j]
    ensures |set i | 0 <= i < |keys| :: keys[i]| == |keys|
  {
    if |keys| > 0 {
      var tail := keys[1..];
      DistinctCardinality(tail);
      var all := set i | 0 <= i < |keys| :: keys[i];
      var rest := set i | 0 <= i < |tail| :: tail[i];
      assert all == rest + {keys[0]} by {
        forall k | k in all ensures k in rest + {keys[0]} {
          var i :| 0 <= i < |keys| && keys[i] == k;
          if i > 0 { assert tail[i - 1] == k; }
        }
      }
      assert keys[0] !in rest;
    }
  }

  /** `POST /create`: a new entry under a new id. The body is validated before the handler
      looks at the document, so a malformed body is reported even for an existing id. */
  function CreatePatient(doc: Document, body: NewPatient): (r: Result<Document, Error>)
    ensures r.Failure? && r.error.Invalid? <==> Validate(body.id, body.fields).Failure?
    ensures r == Failure(Conflict) <==> Validate(body.id, body.fields).Success? && body.id.value in doc
    ensures r.Success? <==> Validate(body.id, body.fields).Success? && body.id.value !in doc
    ensures r.Failure? ==> r.error == Conflict || r.error.Invalid?
    ensures r.Failure? && r.error.Invalid? ==> r.error.fields == Validate(body.id, body.fields).error
    ensures r.Success? ==> body.id.Some? && body.id.value !in doc
    ensures r.Success? ==> r.value.Keys == doc.Keys + {body.id.value}
    ensures r.Success? ==> forall k :: k in doc ==> r.value[k] == doc[k]
    ensures r.Success? ==>
      var e := r.value[body.id.value];
      && Canonical(e)
      && e.name == body.fields.name && e.city == body.fields.city && e.age == body.fields.age
      && e.gender == body.fields.gender && e.height == body.fields.height
      && e.weight == body.fields.weight
  {
    match Validate(body.id, body.fields)
    case Failure(bad) => Failure(Invalid(bad))
    case Success(p) =>
      if p.id in doc then Failure(Conflict)
      else
        DumpRoundTrip(p);
        Success(doc[p.id := Dump(p)])
  }

  /** `PUT /edit/{id}`: merges the update into the stored entry, validates the merge as a whole
      patient under the path's id, and stores it with recomputed `bmi` and `verdict`. */
  function UpdatePatient(doc: Document, id: string, u: PatientUpdate): (r: Result<Document, Error>)
    ensures r.Success? <==>
      && ValidateUpdate(u).Success?
      && id in doc
      && Validate(Some(id), Merge(doc[id], u)).Success?
    ensures ValidateUpdate(u).Failure? ==> r == Failure(Invalid(UpdateViolations(u)))
    ensures ValidateUpdate(u).Success? && id !in doc ==> r == Failure(NotFound)
    ensures ValidateUpdate(u).Success? && id in doc && Validate(Some(id), Merge(doc[id], u)).Failure? ==>
      r == Failure(ServerError(Violations(Some(id), Merge(doc[id], u))))
    ensures r.Failure? ==> r.error == NotFound || r.error.Invalid? || r.error.ServerError?
    ensures r.Success? ==> r.value.Keys == doc.Keys
    ensures r.Success? ==> forall k :: k in doc && k != id ==> r.value[k] == doc[k]
    ensures r.Success? ==>
      var e, m := r.value[id], Merge(doc[id], u);
      && Canonical(e)
      && e.name == m.name && e.city == m.city && e.age == m.age
      && e.gender == m.gender && e.height == m.height && e.weight == m.weight
  {
    match ValidateUpdate(u)
    case Failure(bad) => Failure(Invalid(bad))
    case Success(_) =>
      if id !in doc then Failure(NotFound)
      else
        match Validate(Some(id), Merge(doc[id], u))
        case Failure(bad) => Failure(ServerError(bad))
        case Success(p) =>
          DumpRoundTrip(p);
          Success(doc[id := Dump(p)])
  }

  /** `DELETE /delete/{id}`: removes the entry. */
  function DeletePatient(doc: Document, id: string): (r: Result<Document, Error>)
    ensures r.Success? <==> id in doc
    ensures r.Failure? ==> r.error == NotFound
    ensures r.Success? ==> r.value.Keys == doc.Keys - {id}
    ensures r.Success? ==> forall k :: k in r.value ==> r.value[k] == doc[k]
  {
    if id in doc then Success(doc - {id}) else Failure(NotFound)
  }
}
